=== FILE: README.md ===
# psag.cc URL shortener: a Dafny model of its request logic

The service turns a long URL on `goldsborough.me` into a short link
`psag.cc/<hash>`. A `POST /shorten` looks the URL up in the `urls` table. If a
row already holds it, the service returns that row's hash. Otherwise it inserts
a new row under a random eight-digit hex hash. It tries up to 100 random hashes,
moving to the next one after any refused insert (a collision or another
database error). `GET /<hash>` redirects to the stored URL with status 308 and adds one
to the row's visit count.

This project models that logic as pure functions and short methods over an
immutable table, and proves what the handlers promise about it.

Modules, one per source file:

- `Models` (`models.dfy`): the table, a `map` from hash to `Url(longUrl, accessCount)`.
  It also holds `NewUrl::new`, the `{:08x}` hash encoding and its inverse, and the
  primary-key-respecting insert.
- `Shorten` (`shorten.dfy`): the lookup, the bounded retry loop, `get_hash`, and the
  JSON response. The JSON response comes with a small reader that recovers the
  body's fields.
- `Resolve` (`resolve.dfy`): the lookup, the visit counter, and the redirect or
  error page.
- `Service` (`service.dfy`): the dispatching `match` in its arm order,
  `is_valid_hash`, form parsing, the plain response, and the whole request
  handler `Call`.
- `Http`, `Text`, `Results`: a stand-in for hyper's response, UTF-8 byte
  lengths, and `Option`/`Result`.

The outside world enters as parameters:

- Randomness is a sequence of `Attempt(random, fails)`, one per insert attempt.
  `fails` marks an insert the database refuses for a reason other than a
  collision.
- A failing lookup is `dbError`, which carries the database's error text.
- `char::is_alphanumeric` is a function `alnum`. It is fixed only on ASCII, where
  it accepts exactly digits and letters.
- `Url::parse` with `host_str` is a function `parseUrl` that returns a host or an
  error text.
- Template rendering is a function `render`, and static-file reading is a
  function `readFile`.

Four behaviours of the code worth knowing:

- Every failure of `POST /shorten` is answered with 500, malformed input
  included (src/service.rs:85-90 and 149-152, src/url_shortener/shorten.rs:110-113).
- `GET /` renders the index page; it does not redirect (src/service.rs:74-77).
- `GET /shorten` resolves the hash "shorten"; it does not show a form page
  (src/service.rs:95-106).
- The resolve error page carries hyper's default status, 200, because no status
  is set on it (src/url_shortener/resolve.rs:64-71).

## Model

| member | source | states |
|---|---|---|
| Models.EncodeHash | src/db/models.rs:22 | a hash printed from any `u32` has exactly 8 characters, each in `0-9a-f` |
| Models.DecodeEncodeHash | src/db/models.rs:22 | the hash is the zero-padded big-endian hex of the number: reading it back gives the number |
| Models.EncodeDecodeHash | src/db/models.rs:22 | every 8-digit lower-case hex string is the printing of the number it denotes, so the encoding is onto that shape |
| Models.EncodeHashInjective | src/db/models.rs:22 | distinct random numbers give distinct hashes, and equal numbers equal hashes |
| Models.NewUrlFor | src/db/models.rs:21-24 | `NewUrl::new` keeps the long URL verbatim and pairs it with the hash printed from the random draw |
| Models.Insert | src/url_shortener/shorten.rs:48-51 | an insert succeeds iff the hash is not yet a key and the database does not fail; on success exactly one row, with count 0, is added and every other row is kept |
| Shorten.FirstSuccess | src/url_shortener/shorten.rs:46-60 | reference for the retry loop: the least attempt index below 100 whose insert goes through, or none when all 100 are refused |
| Shorten.QueryDbForHash | src/url_shortener/shorten.rs:25-39 | a database error is passed on; otherwise the answer is "no row" exactly when no row holds the URL, and a returned hash is the key of a row holding it |
| Shorten.GenerateAndInsertHashIntoDb | src/url_shortener/shorten.rs:41-61 | at most 100 attempts; refused attempts change nothing; the hash returned is that of the first accepted attempt and the table gains exactly that row; after 100 refusals the result is none and the table is unchanged |
| Shorten.GetHash | src/url_shortener/shorten.rs:63-94 | lookup errors are reported with no insert; an existing row's hash comes back with `alreadyExisted` and no insert; otherwise the first accepted insert's hash with `alreadyExisted = false`, or "Could not find hash for URL" once all attempts fail; so a hash comes back exactly when the lookup works and a row holds the URL or some attempt goes through, and `alreadyExisted` says whether a row held it; at most one key is added; existing rows, well-formed keys and one-hash-per-URL are preserved |
| Shorten.ShortenTwice | src/url_shortener/shorten.rs:67-79 | submitting a URL a second time returns the same hash with `alreadyExisted = true` and inserts nothing |
| Shorten.MakeResponse | src/url_shortener/shorten.rs:96-122 | status 200 on success and 500 on error, JSON content type, ContentLength equal to the body's byte length; an error body is `{"error": "`, then the description verbatim with nothing escaped, then `"}` |
| Shorten.ReadSuccessPayload | src/url_shortener/shorten.rs:101-108 | a success body reads back as `shortUrl` = `<domain>/<hash>` and the `alreadyExisted` flag |
| Shorten.ReadErrorPayload | src/url_shortener/shorten.rs:110-113 | an error body reads back as its description exactly when the description holds no quote and no backslash |
| Shorten.QuotedDescriptionBreaksPayload | src/url_shortener/shorten.rs:110-113 | the description `a"b` ends the JSON string early, so its error body is not an error payload at all; such descriptions come from user input through src/service.rs:142-144 |
| Shorten.ShortUrlNeedsNoEscaping | src/db/models.rs:22 | a domain without quotes followed by "/" and a printed hash holds no quote or backslash, so the short URL goes into the JSON body intact |
| Resolve.IncrementAccessCount | src/url_shortener/resolve.rs:19-28 | the row's count goes up by exactly one; its URL, the key set and every other row are unchanged |
| Resolve.ResolveUrl | src/url_shortener/resolve.rs:30-52 | a present hash yields its stored URL and counts one visit; an absent hash or a failed query yields "Could not resolve <hash>" and leaves the table unchanged |
| Resolve.ResolveKeepsRows | src/url_shortener/resolve.rs:19-52 | resolving keeps every key and URL, never lowers a count, and preserves well-formed keys and one-hash-per-URL |
| Resolve.MakeResponse | src/url_shortener/resolve.rs:54-74 | always Ok; a URL gives a 308 whose Location is the URL; an error gives the "resolve-error" page rendered with `why`, the default status and ContentLength equal to the page's byte length |
| Resolve.KnownHashRedirects | src/url_shortener/resolve.rs:39-63 | resolving a stored hash answers 308 to exactly the stored URL |
| Resolve.UnknownHashNeverRedirects | src/url_shortener/resolve.rs:44-71 | resolving an absent hash never redirects and shows the error page for "Could not resolve <hash>" |
| Service.IsValidHash | src/service.rs:155-157 | true iff every character is alphanumeric, hence true of the empty string |
| Service.RouteOf | src/service.rs:72-119 | the arm chosen for each method and path, with index before shorten before resolve before static before 404 |
| Service.RootIsIndex | src/service.rs:74-77 | `GET /` is the index page even though its empty tail is a valid hash |
| Service.PostRoutes | src/service.rs:79-118 | a POST reaches the shorten pipeline only at "/shorten" and is a 404 anywhere else |
| Service.GetShortenResolves | src/service.rs:95-106 | `GET /shorten` resolves the hash "shorten" |
| Service.StaticNeverResolves | src/service.rs:95-112 | a GET under "/static/www/" always reaches the static arm, never the resolve arm |
| Service.GeneratedHashResolves | src/db/models.rs:22 | every generated hash is a valid hash and `GET /<hash>` routes to resolving it |
| Service.Normalize | src/service.rs:132-135 | the result starts with "http", equals the value exactly when the value starts with "http", is "http://" followed by the value otherwise, and always ends with the value |
| Service.NormalizeIdempotent | src/service.rs:132-135 | normalising twice is normalising once |
| Service.ParseUrlFromForm | src/service.rs:123-153 | a missing `url` field is rejected; the result is the normalised value iff it parses with host `goldsborough.me` or `www.goldsborough.me`; a bad host or a parse failure gives its own message |
| Service.EmptyUrlRejected | src/service.rs:132-136 | an empty `url` field becomes "http://"; when the parser rejects that host-less URL the form fails with "Invalid URL http://: …" before any table access |
| Service.MakeResponse | src/service.rs:159-166 | the given status and body, with ContentLength equal to the body's byte length, which is its length for ASCII |
| Service.MissingFieldReadsBack | src/service.rs:147 | the JSON body for a form without `url` reads back as exactly "Missing form field 'url' for request to /shorten" |
| Service.SuccessBodyNamesRow | src/url_shortener/shorten.rs:101-108 | with well-formed keys, a success body reads back as `psag.cc/<hash>` where `<hash>` is the key of the row holding the URL |
| Service.ShortenAndRespond | src/service.rs:86-90 | once the form is accepted: a JSON answer whose ContentLength is the body's byte length; a 200 exactly when the lookup works and a row holds the URL or some attempt's insert goes through; with well-formed keys a 200 names the row holding the URL and its `alreadyExisted` says whether that row was there before; any other answer is a 500 whose body is `{"error": "<database error>"}` or `{"error": "Could not find hash for URL"}`; at most one row is added; existing rows and both table invariants are kept |
| Service.HandleShorten | src/service.rs:79-93 | the POST pipeline: a rejected form answers 500 with `{"error": "<the form error>"}` and touches nothing, and a missing field reads back as its message; an accepted form gets a 200 exactly when the lookup works and a row holds the normalised URL or some insert goes through, with well-formed keys that 200 names the row and says whether it existed, and otherwise a 500 with the database error or "Could not find hash for URL"; at most one row is added; rows, well-formed keys and one-hash-per-URL are preserved |
| Service.Call | src/service.rs:68-120 | per route: index 200, 404 page, static file; a 308 to the stored URL, with no body and no ContentLength, that adds one visit to that row and changes no other row or key; the "resolve-error" page rendered with "Could not resolve <hash>"; for `POST /shorten`, the shorten answer above; every answer but the redirect carries ContentLength equal to its body's byte length; no row is ever lost, no URL changed, no count lowered, and both table invariants are kept |
| Service.ShortenThenResolve | src/url_shortener/resolve.rs:30-52 | a URL just shortened resolves to itself; a freshly created row then has been visited exactly once |
| Text.Utf8Length | src/service.rs:163 | ContentLength counts UTF-8 bytes: between one and four per character, and exactly one per character iff the body is ASCII |

## Left out

- Futures, hyper's `Service` plumbing and the `CpuPool` worker threads: every handler runs to completion, one request at a time.
- The r2d2/diesel connection pool and SQL are replaced by a map. This leaves out the race between lookup and insert under concurrent submissions of one URL.
- Resolve.IncrementAccessCount: requires the row to exist. The source unwraps the update instead, and resolving only calls it after finding the row.
- `access_count` is an `i32` in the table. The model counts with unbounded naturals and omits overflow.
- `creation_time` (wall-clock time) is not modelled. The `urls` schema is not part of this model, and a new row's count is taken to start at 0.
- Shorten.GetHash: requires at least 100 draws in the attempt sequence, which replaces `rand::random` with one draw per possible attempt.
- `form_urlencoded::parse` is not modelled: the form arrives already decoded as a map.
- `Url::parse` is not modelled either: it is the `parseUrl` parameter. A URL that parses but has no host would make `host_str().unwrap()` panic; the model leaves that case out because its parser always yields a host on success.
- Reading the request body (`concat2`) and its failure are not modelled.
- `char::is_alphanumeric` is fixed only on ASCII characters. Its Unicode behaviour stays a parameter.
- `Service.RouteOf`: requires a GET path to be non-empty with an ASCII first character. Rust's `&path[1..]` would panic on any other path, and hyper never hands one over.
- src/url_shortener/resource_manager.rs: template loading and handlebars rendering are the `render` parameter. Reading static files is the `readFile` parameter.
- `render` and `readFile` stand for renders and reads that succeed. The source panics instead: on a missing or unreadable static file (`expect`, src/url_shortener/resource_manager.rs:44-48) and on a failed render (`unwrap`, src/url_shortener/resource_manager.rs:38). So a missing static file crashes the request instead of being answered, and the model does not cover that case.
- src/logging.rs and src/main.rs: logging, environment variables and the socket are not modelled.
- static/www/index.js and www/index.js: browser code that is not part of the server.

=== FILE: http.dfy ===
/** The part of hyper's response type the handlers set. */
module Http {
  import opened Results

  /** The status codes the service uses: 200, 308, 404 and 500. */
  datatype Status = Ok | PermanentRedirect | NotFound | InternalServerError

  datatype MediaType = Json

  /** A response: its status, the three headers the service ever sets, and
      its body. */
  datatype Response = Response(
    status: Status,
    contentLength: Option<nat>,
    contentType: Option<MediaType>,
    location: Option<string>,
    body: string)

  /** `Response::new()`: status 200, no headers, empty body. */
  const Blank: Response := Response(Ok, None, None, None, "")
}

=== FILE: models.dfy ===
/** The `urls` table, its rows, and the hash format of src/db/models.rs. */
module Models {
  import opened Results

  /** Rust's `u32`. */
  type U32 = x: int | 0 <= x < 0x1_0000_0000

  const HashLength: nat := 8

  predicate IsLowerHexDigit(c: char) {
    '0' <= c <= '9' || 'a' <= c <= 'f'
  }

  predicate IsLowerHex(s: string) {
    forall i :: 0 <= i < |s| ==> IsLowerHexDigit(s[i])
  }

  /** What `format!("{:08x}", n)` produces for any `u32`: eight lower-case hex digits. */
  predicate IsHashShaped(s: string) {
    |s| == HashLength && IsLowerHex(s)
  }

  function DigitValue(c: char): (d: nat)
    requires IsLowerHexDigit(c)
    ensures d < 16
  {
    if c <= '9' then c as int - '0' as int else c as int - 'a' as int + 10
  }

  /** The digit `{:x}` prints for a value below 16. */
  function HexDigit(d: nat): (c: char)
    requires d < 16
    ensures IsLowerHexDigit(c) && DigitValue(c) == d
  {
    if d < 10 then ('0' as int + d) as char else ('a' as int + d - 10) as char
  }

  lemma HexDigitOfValue(c: char)
    requires IsLowerHexDigit(c)
    ensures HexDigit(DigitValue(c)) == c
  {
  }

  function Pow16(n: nat): (p: nat)
    ensures p >= 1
  {
    if n == 0 then 1 else 16 * Pow16(n - 1)
  }

  /** The `n` low-order hex digits of `x`, most significant first, zero padded. */
  function PaddedHex(x: nat, n: nat): (s: string)
    ensures |s| == n && IsLowerHex(s)
  {
    if n == 0 then "" else PaddedHex(x / 16, n - 1) + [HexDigit(x % 16)]
  }

  /** The number a string of hex digits denotes, read big-endian. */
  function HexValue(s: string): (v: nat)
    requires IsLowerHex(s)
    ensures v < Pow16(|s|)
  {
    if s == [] then 0
    else
      assert IsLowerHex(s[..|s| - 1]);
      16 * HexValue(s[..|s| - 1]) + DigitValue(s[|s| - 1])
  }

  /** The hash of a row: `format!("{:08x}", random)`. */
  function EncodeHash(random: U32): (h: string)
    ensures IsHashShaped(h)
  {
    PaddedHex(random, HashLength)
  }

  /** Reads a hash back as the `u32` it was printed from; `None` for any
      string `{:08x}` cannot produce. */
  function DecodeHash(h: string): (r: Option<U32>)
    ensures r.Some? <==> IsHashShaped(h)
  {
    if IsHashShaped(h) then
      assert Pow16(HashLength) == 0x1_0000_0000;
      Some(HexValue(h))
    else None
  }

  lemma {:induction false} HexValueOfPaddedHex(x: nat, n: nat)
    requires x < Pow16(n)
    ensures HexValue(PaddedHex(x, n)) == x
  {
    if n > 0 {
      var s := PaddedHex(x, n);
      assert s[..n - 1] == PaddedHex(x / 16, n - 1);
      HexValueOfPaddedHex(x / 16, n - 1);
    }
  }

  lemma {:induction false} PaddedHexOfHexValue(s: string)
    requires IsLowerHex(s)
    ensures PaddedHex(HexValue(s), |s|) == s
  {
    if s != [] {
      var init, last := s[..|s| - 1], s[|s| - 1];
      assert IsLowerHex(init);
      var v := HexValue(s);
      assert v / 16 == HexValue(init) && v % 16 == DigitValue(last);
      PaddedHexOfHexValue(init);
      HexDigitOfValue(last);
      assert s == init + [last];
    }
  }

  /** Decoding a printed hash gives back the number it was printed from. */
  lemma DecodeEncodeHash(random: U32)
    ensures DecodeHash(EncodeHash(random)) == Some(random)
  {
    assert Pow16(HashLength) == 0x1_0000_0000;
    HexValueOfPaddedHex(random, HashLength);
  }

  /** Every string shaped like a hash is the printing of exactly the number it decodes to. */
  lemma EncodeDecodeHash(h: string)
    requires IsHashShaped(h)
    ensures DecodeHash(h).Some? && EncodeHash(DecodeHash(h).value) == h
  {
    PaddedHexOfHexValue(h);
  }

  /** Distinct random numbers give distinct hashes. */
  lemma EncodeHashInjective(a: U32, b: U32)
    ensures EncodeHash(a) == EncodeHash(b) <==> a == b
  {
    if EncodeHash(a) == EncodeHash(b) {
      DecodeEncodeHash(a);
      DecodeEncodeHash(b);
    }
  }

  /** A row of `urls` as the service sees it, keyed by its hash.
      `creation_time` is not modelled. */
  datatype Url = Url(longUrl: string, accessCount: nat)

  /** The `urls` table: `hash` is its primary key. */
  type Store = map<string, Url>

  /** The insertable part of a row. */
  datatype NewUrl = NewUrl(hash: string, longUrl: string)

  /** `NewUrl::new`: pairs the URL, kept verbatim, with the hash printed from
      the random number drawn for this attempt. */
  function NewUrlFor(longUrl: string, random: U32): (row: NewUrl)
    ensures row.longUrl == longUrl
    ensures IsHashShaped(row.hash) && DecodeHash(row.hash) == Some(random)
  {
    DecodeEncodeHash(random);
    NewUrl(EncodeHash(random), longUrl)
  }

  /** `INSERT INTO urls`: refused when the hash is already a key (the primary
      key constraint) or when the database fails for any other reason
      (`fault`); otherwise exactly one row, with access count 0, is added. */
  function Insert(store: Store, row: NewUrl, fault: bool): (r: Option<Store>)
    ensures r.Some? <==> !fault && row.hash !in store
    ensures r.Some? ==> r.value.Keys == store.Keys + {row.hash}
    ensures r.Some? ==> |r.value| == |store| + 1
    ensures r.Some? ==> r.value[row.hash] == Url(row.longUrl, 0)
    ensures r.Some? ==> forall h :: h in store ==> r.value[h] == store[h]
  {
    if fault || row.hash in store then None
    else Some(store[row.hash := Url(row.longUrl, 0)])
  }

  predicate HasUrl(store: Store, longUrl: string) {
    exists h :: h in store && store[h].longUrl == longUrl
  }

  /** Every key is a hash the service could have printed. */
  predicate WellFormed(store: Store) {
    forall h :: h in store ==> IsHashShaped(h)
  }

  /** No long URL is stored under two hashes. */
  predicate UrlsDistinct(store: Store) {
    forall h1, h2 :: h1 in store && h2 in store && store[h1].longUrl == store[h2].longUrl ==> h1 == h2
  }
}

=== FILE: resolve.dfy ===
/** src/url_shortener/resolve.rs: look a hash up, count the visit, and answer
    with a redirect or the error page. */
module Resolve {
  import opened Results
  import opened Text
  import opened Http
  import opened Models

  /** Renders a named page template with the given values; the templates are
      read from disk at start-up, so they are a parameter here. */
  type Renderer = (string, map<string, string>) -> string

  const ErrorPage: string := "resolve-error"

  /** `increment_access_count`: adds one to the visit count of the row under
      `hash`; every other row, and the row's URL, stay as they are. The
      source unwraps the update's result, so the row must exist. */
  function IncrementAccessCount(store: Store, hash: string): (store': Store)
    requires hash in store
    ensures store'.Keys == store.Keys
    ensures store'[hash].longUrl == store[hash].longUrl
    ensures store'[hash].accessCount == store[hash].accessCount + 1
    ensures forall h :: h in store && h != hash ==> store'[h] == store[h]
  {
    store[hash := store[hash].(accessCount := store[hash].accessCount + 1)]
  }

  /** `resolve_url`: the stored URL of `hash`, counting the visit; any failed
      query, a missing row or a database error (`dbError`), is reported as
      "Could not resolve <hash>" and changes nothing. */
  function ResolveUrl(store: Store, hash: string, dbError: Option<string>): (r: (Result<string>, Store))
    ensures dbError.None? && hash in store ==>
      && r.0 == Success(store[hash].longUrl)
      && r.1.Keys == store.Keys
      && r.1[hash] == Url(store[hash].longUrl, store[hash].accessCount + 1)
      && forall h :: h in store && h != hash ==> r.1[h] == store[h]
    ensures dbError.Some? || hash !in store ==>
      r.0 == Failure("Could not resolve " + hash) && r.1 == store
  {
    if dbError.None? && hash in store then
      (Success(store[hash].longUrl), IncrementAccessCount(store, hash))
    else
      (Failure("Could not resolve " + hash), store)
  }

  /** Resolving never loses a row, never changes a URL, and never lowers a
      visit count, so it keeps both store invariants. */
  lemma ResolveKeepsRows(store: Store, hash: string, dbError: Option<string>)
    ensures var store' := ResolveUrl(store, hash, dbError).1;
      && store'.Keys == store.Keys
      && (forall h :: h in store ==> store'[h].longUrl == store[h].longUrl)
      && (forall h :: h in store ==> store'[h].accessCount >= store[h].accessCount)
      && (WellFormed(store) ==> WellFormed(store'))
      && (UrlsDistinct(store) ==> UrlsDistinct(store'))
  {
  }

  /** `make_response`: a 308 to the URL, or the rendered error page with the
      description as `why`. No status is set on the error page, so it keeps
      hyper's default of 200. Never fails. */
  function MakeResponse(render: Renderer, result: Result<string>): (r: Result<Response>)
    ensures r.Success?
    ensures result.Success? ==>
      && r.value.status == PermanentRedirect
      && r.value.location == Some(result.value)
      && r.value.contentLength == None && r.value.body == ""
    ensures result.Failure? ==>
      && r.value.status == Ok
      && r.value.location == None
      && r.value.body == render(ErrorPage, map["why" := result.why])
      && r.value.contentLength == Some(Utf8Length(r.value.body))
  {
    match result
    case Success(longUrl) =>
      Success(Blank.(status := PermanentRedirect, location := Some(longUrl)))
    case Failure(why) =>
      var page := render(ErrorPage, map["why" := why]);
      Success(Blank.(contentLength := Some(Utf8Length(page)), body := page))
  }

  /** A known hash redirects permanently to its stored URL. */
  lemma KnownHashRedirects(render: Renderer, store: Store, hash: string)
    requires hash in store
    ensures var resp := MakeResponse(render, ResolveUrl(store, hash, None).0).value;
      resp.status == PermanentRedirect && resp.location == Some(store[hash].longUrl)
  {
  }

  /** An unknown hash never redirects. */
  lemma UnknownHashNeverRedirects(render: Renderer, store: Store, hash: string, dbError: Option<string>)
    requires hash !in store
    ensures var resp := MakeResponse(render, ResolveUrl(store, hash, dbError).0).value;
      resp.status != PermanentRedirect && resp.location == None
      && resp.body == render(ErrorPage, map["why" := "Could not resolve " + hash])
  {
  }
}

=== FILE: results.dfy ===
/** Failure-carrying return values shared by every module of the model. */
module Results {

  /** An optional value: Rust's `Option`. */
  datatype Option<+T> = None | Some(value: T)

  /** A value or the description of the error that prevented it. Every error of
      the service ends up rendered through its description string, so the
      string is all the model keeps of an error. */
  datatype Result<+T> = Success(value: T) | Failure(why: string)
}

=== FILE: service.dfy ===
/** src/service.rs: request dispatch, form parsing and the plain responses. */
module Service {
  import opened Results
  import opened Text
  import opened Http
  import opened Models
  import Shorten
  import Resolve

  const LongDomain: string := "goldsborough.me"
  const ShortDomain: string := "psag.cc"

  /** "Missing form field 'url' for request to /shorten". It is written in
      four pieces because the proof that it holds no quote is much cheaper
      one piece at a time than on the whole literal. */
  const MissingUrlField: string := "Missing form" + " field 'url'" + " for request" + " to /shorten"

  datatype Method = Get | Post | OtherMethod(name: string)

  datatype Request = Request(verb: Method, path: string, form: map<string, string>)

  /** The arms of the dispatching `match`, in the order they are tried. */
  datatype Route =
    | IndexPage
    | ShortenSubmit
    | ResolveHash(hash: string)
    | StaticResource(file: string)
    | UnknownResource

  /** Rust's `char::is_alphanumeric` is Unicode-aware; the model takes it as
      a parameter and fixes it only on ASCII, where it accepts exactly the
      digits and letters. */
  predicate AgreesOnAscii(alnum: char -> bool) {
    forall c: char :: IsAsciiChar(c) ==> (alnum(c) <==> IsAsciiAlphanumeric(c))
  }

  /** `is_valid_hash`: every character is alphanumeric, so the empty string
      qualifies. */
  function IsValidHash(hash: string, alnum: char -> bool): (b: bool)
    ensures b <==> forall i :: 0 <= i < |hash| ==> alnum(hash[i])
  {
    if hash == [] then true
    else
      assert forall i :: 1 <= i < |hash| ==> hash[i] == hash[1..][i - 1];
      alnum(hash[0]) && IsValidHash(hash[1..], alnum)
  }

  /** `&path[1..]` slices at byte 1, which is defined when the path is not
      empty and starts with a one-byte character, as every request path
      hyper hands over (`/...` or `*`) does. */
  predicate PathSliceable(path: string) {
    |path| > 0 && IsAsciiChar(path[0])
  }

  /** The dispatching `match` of `call`: the first arm that applies wins. */
  function RouteOf(verb: Method, path: string, alnum: char -> bool): (r: Route)
    requires verb == Get ==> PathSliceable(path)
    ensures r == IndexPage <==> verb == Get && path == "/"
    ensures r == ShortenSubmit <==> verb == Post && path == "/shorten"
    ensures r.ResolveHash? <==> verb == Get && path != "/" && IsValidHash(path[1..], alnum)
    ensures r.ResolveHash? ==> r.hash == path[1..]
    ensures r.StaticResource? <==>
      verb == Get && path != "/" && !IsValidHash(path[1..], alnum) && StartsWith(path, "/static/www/")
    ensures r.StaticResource? ==> r.file == path[1..]
    ensures verb.OtherMethod? ==> r == UnknownResource
  {
    if verb == Get && path == "/" then IndexPage
    else if verb == Post && path == "/shorten" then ShortenSubmit
    else if verb == Get && IsValidHash(path[1..], alnum) then ResolveHash(path[1..])
    else if verb == Get && StartsWith(path, "/static/www/") then StaticResource(path[1..])
    else UnknownResource
  }

  /** "/" is the index page although its empty tail is a valid hash: the
      index arm comes first. */
  lemma RootIsIndex(alnum: char -> bool)
    ensures IsValidHash("", alnum)
    ensures RouteOf(Get, "/", alnum) == IndexPage
  {
  }

  /** A POST reaches the shorten pipeline only at "/shorten"; anywhere else
      it is a 404. */
  lemma PostRoutes(path: string, alnum: char -> bool)
    ensures RouteOf(Post, path, alnum) == (if path == "/shorten" then ShortenSubmit else UnknownResource)
  {
  }

  /** A GET of "/shorten" resolves the hash "shorten" rather than showing a page. */
  lemma GetShortenResolves(alnum: char -> bool)
    requires AgreesOnAscii(alnum)
    ensures RouteOf(Get, "/shorten", alnum) == ResolveHash("shorten")
  {
    var tail := "/shorten"[1..];
    assert tail == "shorten";
    forall i | 0 <= i < |tail| ensures alnum(tail[i]) {
      assert IsAsciiChar(tail[i]) && IsAsciiAlphanumeric(tail[i]);
    }
  }

  /** Static paths never reach the resolve arm: the tail "static/www/..."
      holds a '/', which is not alphanumeric. */
  lemma StaticNeverResolves(path: string, alnum: char -> bool)
    requires AgreesOnAscii(alnum)
    requires StartsWith(path, "/static/www/")
    ensures RouteOf(Get, path, alnum) == StaticResource(path[1..])
  {
    assert path[7] == "/static/www/"[7] == '/';
    assert path[1..][6] == path[7];
    assert !alnum(path[1..][6]);
  }

  /** Every generated hash is a valid hash, so GET /<hash> resolves it. */
  lemma GeneratedHashResolves(random: U32, alnum: char -> bool)
    requires AgreesOnAscii(alnum)
    ensures IsValidHash(EncodeHash(random), alnum)
    ensures RouteOf(Get, "/" + EncodeHash(random), alnum) == ResolveHash(EncodeHash(random))
  {
    var h := EncodeHash(random);
    forall i | 0 <= i < |h| ensures alnum(h[i]) {
      assert IsLowerHexDigit(h[i]);
    }
    assert ("/" + h)[1..] == h;
  }

  /** What `url::Url::parse` followed by `host_str` yields: a host, or the
      parser's error message. */
  datatype UrlParse = Parsed(host: string) | Unparsable(why: string)

  type UrlParser = string -> UrlParse

  /** Prefixes "http://" unless the value already starts with "http". */
  function Normalize(value: string): (url: string)
    ensures StartsWith(url, "http")
    ensures url == value <==> StartsWith(value, "http")
    ensures |url| >= |value| && url[|url| - |value|..] == value
    ensures !StartsWith(value, "http") ==> url == "http://" + value
  {
    if StartsWith(value, "http") then value else "http://" + value
  }

  lemma NormalizeIdempotent(value: string)
    ensures Normalize(Normalize(value)) == Normalize(value)
  {
  }

  predicate IsAllowedHost(host: string) {
    host == LongDomain || host == "www." + LongDomain
  }

  /** `parse_url_from_form`: the normalised `url` field, provided it parses and
      names the long domain, with or without "www.". */
  function ParseUrlFromForm(form: map<string, string>, parseUrl: UrlParser): (r: Result<string>)
    ensures "url" !in form ==> r == Failure(MissingUrlField)
    ensures r.Success? <==>
      "url" in form && parseUrl(Normalize(form["url"])).Parsed?
      && IsAllowedHost(parseUrl(Normalize(form["url"])).host)
    ensures r.Success? ==> r.value == Normalize(form["url"])
    ensures "url" in form ==>
      var url := Normalize(form["url"]);
      match parseUrl(url)
      case Parsed(host) =>
        !IsAllowedHost(host) ==> r == Failure("Invalid domain '" + host + "', expected " + LongDomain)
      case Unparsable(why) =>
        r == Failure("Invalid URL " + url + ": " + why)
  {
    if "url" !in form then Failure(MissingUrlField)
    else
      var url := Normalize(form["url"]);
      match parseUrl(url)
      case Parsed(host) =>
        if IsAllowedHost(host) then Success(url)
        else Failure("Invalid domain '" + host + "', expected " + LongDomain)
      case Unparsable(why) =>
        Failure("Invalid URL " + url + ": " + why)
  }

  /** An empty `url` field normalises to "http://", which has no host; a
      parser that rejects it makes the form fail before any table access. */
  lemma EmptyUrlRejected(parseUrl: UrlParser)
    requires parseUrl("http://").Unparsable?
    ensures ParseUrlFromForm(map["url" := ""], parseUrl).Failure?
    ensures ParseUrlFromForm(map["url" := ""], parseUrl)
      == Failure("Invalid URL http://: " + parseUrl("http://").why)
  {
    assert Normalize("") == "http://";
  }

  /** `make_response`: the given status and body, with the body's byte length. */
  function MakeResponse(status: Status, body: string): (resp: Response)
    ensures resp.status == status && resp.body == body
    ensures resp.contentLength == Some(Utf8Length(body))
    ensures IsAscii(body) ==> resp.contentLength == Some(|body|)
    ensures resp.contentType == None && resp.location == None
  {
    Blank.(status := status, contentLength := Some(Utf8Length(body)), body := body)
  }

  /** What a request handler depends on besides the table: the character
      class, the URL parser, the page templates and the static files. */
  datatype Env = Env(
    alnum: char -> bool,
    parseUrl: UrlParser,
    render: Resolve.Renderer,
    readFile: string -> string)

  /** `get_template`: a page rendered without values. */
  function Template(env: Env, name: string): string {
    env.render(name, map[])
  }

  /** What a POST to "/shorten" answers: a bad form is a 500 that touches
      nothing, a missing field reads back as its message; an accepted form
      is shortened as `get_hash` decides (see `Shortened`). */
  predicate ShortenAnswers(env: Env, form: map<string, string>, store: Store, dbError: Option<string>,
                           attempts: seq<Shorten.Attempt>, resp: Response, store': Store)
    requires |attempts| >= Shorten.NumberOfHashAttempts
  {
    && (ParseUrlFromForm(form, env.parseUrl).Failure? ==>
          && resp.status == InternalServerError && store' == store
          && resp.body == Shorten.Payload(ShortDomain, Failure(ParseUrlFromForm(form, env.parseUrl).why)))
    && ("url" !in form ==>
          Shorten.ReadPayload(resp.body) == Some(Shorten.ErrorText(MissingUrlField)))
    && (ParseUrlFromForm(form, env.parseUrl).Success? ==>
          Shortened(Normalize(form["url"]), store, dbError, attempts, resp, store'))
  }

  /** The answer to an accepted URL: a 200 exactly when the lookup works and
      a row holds the URL or some attempt's insert goes through; then, when
      every key is a printed hash, the body names the row holding the URL and
      says whether that row was there before. Any other answer is a 500
      carrying the database's error or "Could not find hash for URL". At
      most one row is added. */
  predicate Shortened(longUrl: string, store: Store, dbError: Option<string>,
                      attempts: seq<Shorten.Attempt>, resp: Response, store': Store)
    requires |attempts| >= Shorten.NumberOfHashAttempts
  {
    && (resp.status == Ok <==>
          dbError.None? && (HasUrl(store, longUrl) || Shorten.FirstSuccess(store, attempts, 0).Some?))
    && (resp.status == Ok && WellFormed(store) ==>
          && NamesRow(resp.body, store', longUrl)
          && Shorten.ReadPayload(resp.body).value.alreadyExisted == HasUrl(store, longUrl))
    && (resp.status != Ok ==>
          && resp.status == InternalServerError
          && resp.body == Shorten.Payload(ShortDomain,
               Failure(if dbError.Some? then dbError.value else Shorten.HashesExhausted)))
    && |store'.Keys - store.Keys| <= 1
  }

  /** The body reads back as a short URL on this domain whose hash is the
      key of a row holding `longUrl`. */
  predicate NamesRow(body: string, store: Store, longUrl: string) {
    var fields := Shorten.ReadPayload(body);
    && fields.Some? && fields.value.ShortUrl?
    && StartsWith(fields.value.shortUrl, ShortDomain + "/")
    && var hash := fields.value.shortUrl[|ShortDomain| + 1..];
    && hash in store
    && store[hash].longUrl == longUrl
  }

  lemma SuccessBodyNamesRow(res: Shorten.ShortenResult, store: Store, longUrl: string)
    requires WellFormed(store) && res.hash in store && store[res.hash].longUrl == longUrl
    ensures NamesRow(Shorten.MakeResponse(ShortDomain, Success(res)).body, store, longUrl)
    ensures Shorten.ReadPayload(Shorten.MakeResponse(ShortDomain, Success(res)).body).value.alreadyExisted
            == res.alreadyExisted
  {
    var url := ShortDomain + "/" + res.hash;
    Shorten.ShortUrlNeedsNoEscaping(ShortDomain, res.hash);
    Shorten.ReadSuccessPayload(ShortDomain, res);
    assert url[..|ShortDomain| + 1] == ShortDomain + "/";
    assert url[|ShortDomain| + 1..] == res.hash;
  }

  /** The message for a missing field holds no quote or backslash. */
  lemma MissingFieldIsPlain()
    ensures Shorten.NoQuoteOrBackslash(MissingUrlField)
  {
    var a, b, c, d := "Missing form", " field 'url'", " for request", " to /shorten";
    Shorten.NoQuoteOrBackslashConcat(a, b);
    Shorten.NoQuoteOrBackslashConcat(a + b, c);
    Shorten.NoQuoteOrBackslashConcat(a + b + c, d);
  }

  /** So it reads back intact from the error body. */
  lemma MissingFieldReadsBack()
    ensures Shorten.ReadPayload(Shorten.MakeResponse(ShortDomain, Failure(MissingUrlField)).body)
            == Some(Shorten.ErrorText(MissingUrlField))
  {
    MissingFieldIsPlain();
    Shorten.ReadErrorPayload(ShortDomain, MissingUrlField);
  }

  /** The JSON answer to what `get_hash` reported meets `Shortened`. */
  lemma AnswerIsShortened(longUrl: string, store: Store, dbError: Option<string>, attempts: seq<Shorten.Attempt>,
                          result: Result<Shorten.ShortenResult>, store': Store)
    requires |attempts| >= Shorten.NumberOfHashAttempts
    requires result.Success? <==>
      dbError.None? && (HasUrl(store, longUrl) || Shorten.FirstSuccess(store, attempts, 0).Some?)
    requires result.Success? ==>
      && result.value.alreadyExisted == HasUrl(store, longUrl)
      && result.value.hash in store' && store'[result.value.hash].longUrl == longUrl
    requires result.Failure? ==>
      result.why == (if dbError.Some? then dbError.value else Shorten.HashesExhausted)
    requires WellFormed(store) ==> WellFormed(store')
    requires |store'.Keys - store.Keys| <= 1
    ensures Shortened(longUrl, store, dbError, attempts, Shorten.MakeResponse(ShortDomain, result), store')
  {
    if result.Success? && WellFormed(store) {
      SuccessBodyNamesRow(result.value, store', longUrl);
    }
  }

  /** The tail of the shorten arm once the form is accepted: `get_hash`,
      then the JSON response on the short domain. */
  method ShortenAndRespond(longUrl: string, store: Store, dbError: Option<string>, attempts: seq<Shorten.Attempt>)
    returns (resp: Response, store': Store)
    requires |attempts| >= Shorten.NumberOfHashAttempts
    ensures resp.contentType == Some(Json)
    ensures resp.contentLength == Some(Utf8Length(resp.body))
    ensures Shortened(longUrl, store, dbError, attempts, resp, store')
    ensures forall h :: h in store ==> h in store' && store'[h] == store[h]
    ensures WellFormed(store) ==> WellFormed(store')
    ensures UrlsDistinct(store) ==> UrlsDistinct(store')
  {
    var result;
    result, store' := Shorten.GetHash(longUrl, store, dbError, attempts);
    resp := Shorten.MakeResponse(ShortDomain, result);
    AnswerIsShortened(longUrl, store, dbError, attempts, result, store');
  }

  /** The shorten arm of `call`: parse the form, find or create the hash,
      and answer in JSON. */
  method HandleShorten(env: Env, form: map<string, string>, store: Store, dbError: Option<string>, attempts: seq<Shorten.Attempt>)
    returns (resp: Response, store': Store)
    requires |attempts| >= Shorten.NumberOfHashAttempts
    ensures resp.contentType == Some(Json)
    ensures resp.contentLength == Some(Utf8Length(resp.body))
    ensures ShortenAnswers(env, form, store, dbError, attempts, resp, store')
    ensures forall h :: h in store ==> h in store' && store'[h] == store[h]
    ensures WellFormed(store) ==> WellFormed(store')
    ensures UrlsDistinct(store) ==> UrlsDistinct(store')
  {
    var longUrl := ParseUrlFromForm(form, env.parseUrl);
    if longUrl.Failure? {
      if "url" !in form {
        MissingFieldReadsBack();
      }
      resp, store' := Shorten.MakeResponse(ShortDomain, Failure(longUrl.why)), store;
    } else {
      resp, store' := ShortenAndRespond(longUrl.value, store, dbError, attempts);
    }
  }

  /** `call`: dispatches the request and runs the arm's pipeline against
      the table. Only the shorten and resolve arms touch the table. */
  method Call(env: Env, request: Request, store: Store, dbError: Option<string>, attempts: seq<Shorten.Attempt>)
    returns (resp: Response, store': Store)
    requires request.verb == Get ==> PathSliceable(request.path)
    requires |attempts| >= Shorten.NumberOfHashAttempts
    ensures var route := RouteOf(request.verb, request.path, env.alnum);
      && (route == IndexPage ==>
            resp.status == Ok && resp.body == Template(env, "index") && store' == store)
      && (route == UnknownResource ==>
            resp.status == NotFound && resp.body == Template(env, "404") && store' == store)
      && (route.StaticResource? ==>
            resp.status == Ok && resp.body == env.readFile(route.file) && store' == store)
      && (route.ResolveHash? && dbError.None? && route.hash in store ==>
            && resp.status == PermanentRedirect
            && resp.location == Some(store[route.hash].longUrl)
            && route.hash in store' && store'[route.hash].accessCount == store[route.hash].accessCount + 1
            && store'.Keys == store.Keys
            && forall h :: h in store && h != route.hash ==> store'[h] == store[h])
      && (route.ResolveHash? && (dbError.Some? || route.hash !in store) ==>
            && resp.status == Ok && resp.location == None && store' == store
            && resp.body == env.render(Resolve.ErrorPage, map["why" := "Could not resolve " + route.hash]))
      && (route == ShortenSubmit ==>
            resp.contentType == Some(Json) && ShortenAnswers(env, request.form, store, dbError, attempts, resp, store'))
    // every answer but a redirect carries its body's byte length
    ensures var route := RouteOf(request.verb, request.path, env.alnum);
      if route.ResolveHash? && dbError.None? && route.hash in store
      then resp.contentLength == None && resp.body == ""
      else resp.contentLength == Some(Utf8Length(resp.body))
    ensures forall h :: h in store ==>
      && h in store'
      && store'[h].longUrl == store[h].longUrl
      && store'[h].accessCount >= store[h].accessCount
    ensures WellFormed(store) ==> WellFormed(store')
    ensures UrlsDistinct(store) ==> UrlsDistinct(store')
  {
    var route := RouteOf(request.verb, request.path, env.alnum);
    store' := store;
    match route
    case IndexPage =>
      resp := MakeResponse(Ok, Template(env, "index"));
    case ShortenSubmit =>
      resp, store' := HandleShorten(env, request.form, store, dbError, attempts);
    case ResolveHash(hash) =>
      var resolved := Resolve.ResolveUrl(store, hash, dbError);
      Resolve.ResolveKeepsRows(store, hash, dbError);
      store' := resolved.1;
      resp := Resolve.MakeResponse(env.render, resolved.0).value;
    case StaticResource(file) =>
      resp := MakeResponse(Ok, env.readFile(file));
    case UnknownResource =>
      resp := MakeResponse(NotFound, Template(env, "404"));
  }

  /** A URL shortened and then visited through its hash redirects back to
      itself; a freshly created row has then been visited exactly once. */
  method ShortenThenResolve(longUrl: string, store: Store, attempts: seq<Shorten.Attempt>)
    returns (shortened: Result<Shorten.ShortenResult>, resolved: Result<string>, store'': Store)
    requires |attempts| >= Shorten.NumberOfHashAttempts
    ensures shortened.Success? ==> resolved == Success(longUrl)
    ensures shortened.Success? && !shortened.value.alreadyExisted ==>
      shortened.value.hash in store'' && store''[shortened.value.hash] == Url(longUrl, 1)
  {
    var store';
    shortened, store' := Shorten.GetHash(longUrl, store, None, attempts);
    if shortened.Failure? {
      return shortened, Failure(shortened.why), store';
    }
    var r := Resolve.ResolveUrl(store', shortened.value.hash, None);
    resolved, store'' := r.0, r.1;
  }
}

=== FILE: shorten.dfy ===
/** src/url_shortener/shorten.rs: find or create the hash of a long URL, and
    the JSON response that reports it. */
module Shorten {
  import opened Results
  import opened Text
  import opened Http
  import opened Models

  /** How many random hashes are tried before giving up. */
  const NumberOfHashAttempts: nat := 100

  const HashesExhausted: string := "Could not find hash for URL"

  datatype ShortenResult = ShortenResult(hash: string, alreadyExisted: bool)

  /** One insert attempt: the random number drawn for it, and whether the
      database refuses the insert for a reason other than a hash collision. */
  datatype Attempt = Attempt(random: U32, fails: bool)

  predicate InsertSucceeds(store: Store, a: Attempt) {
    !a.fails && EncodeHash(a.random) !in store
  }

  /** Reference for the retry loop: the first attempt at or after `from`, among
      the first NumberOfHashAttempts, whose insert goes through. */
  function FirstSuccess(store: Store, attempts: seq<Attempt>, from: nat): (k: Option<nat>)
    requires |attempts| >= NumberOfHashAttempts
    ensures k.Some? ==> from <= k.value < NumberOfHashAttempts && InsertSucceeds(store, attempts[k.value])
    ensures k.Some? ==> forall j :: from <= j < k.value ==> !InsertSucceeds(store, attempts[j])
    ensures k.None? ==> forall j :: from <= j < NumberOfHashAttempts ==> !InsertSucceeds(store, attempts[j])
    decreases NumberOfHashAttempts - from
  {
    if from >= NumberOfHashAttempts then None
    else if InsertSucceeds(store, attempts[from]) then Some(from)
    else FirstSuccess(store, attempts, from + 1)
  }

  /** `query_db_for_hash`: the hash of some row holding `longUrl`, `None` when
      there is none, or the database's error (`dbError`). SQL does not say
      which row answers when several hold the URL, so neither does this. */
  method QueryDbForHash(longUrl: string, store: Store, dbError: Option<string>)
    returns (r: Result<Option<string>>)
    ensures dbError.Some? ==> r == Failure(dbError.value)
    ensures dbError.None? ==> r.Success? && (r.value.None? <==> !HasUrl(store, longUrl))
    ensures r.Success? && r.value.Some? ==>
      r.value.value in store && store[r.value.value].longUrl == longUrl
  {
    if dbError.Some? {
      return Failure(dbError.value);
    }
    if h :| h in store && store[h].longUrl == longUrl {
      return Success(Some(h));
    }
    return Success(None);
  }

  /** `generate_and_insert_hash_into_db`: tries at most NumberOfHashAttempts
      fresh hashes; every refused insert uses up an attempt and changes
      nothing, the first accepted one adds exactly one row and ends the loop.
      `used` is the number of inserts attempted. */
  method GenerateAndInsertHashIntoDb(longUrl: string, store: Store, attempts: seq<Attempt>)
    returns (r: Option<string>, store': Store, used: nat)
    requires |attempts| >= NumberOfHashAttempts
    ensures 1 <= used <= NumberOfHashAttempts
    ensures r.None? <==> FirstSuccess(store, attempts, 0).None?
    ensures r.None? ==> used == NumberOfHashAttempts && store' == store
    ensures r.Some? ==> used == FirstSuccess(store, attempts, 0).value + 1
    ensures r.Some? ==> r.value == EncodeHash(attempts[used - 1].random) && r.value !in store
    ensures r.Some? ==> store' == store[r.value := Url(longUrl, 0)]
  {
    var attempt := 0;
    while attempt < NumberOfHashAttempts
      invariant 0 <= attempt <= NumberOfHashAttempts
      invariant FirstSuccess(store, attempts, 0) == FirstSuccess(store, attempts, attempt)
    {
      var row := NewUrlFor(longUrl, attempts[attempt].random);
      var inserted := Insert(store, row, attempts[attempt].fails);
      if inserted.Some? {
        return Some(row.hash), inserted.value, attempt + 1;
      }
      attempt := attempt + 1;
    }
    return None, store, NumberOfHashAttempts;
  }

  /** `get_hash`: reuse the hash of an existing row for `longUrl`, otherwise
      insert a new one. */
  method GetHash(longUrl: string, store: Store, dbError: Option<string>, attempts: seq<Attempt>)
    returns (r: Result<ShortenResult>, store': Store)
    requires |attempts| >= NumberOfHashAttempts
    // a failed lookup is reported as it is and nothing is inserted
    ensures dbError.Some? ==> r == Failure(dbError.value) && store' == store
    // an existing row answers, and nothing is inserted
    ensures dbError.None? && HasUrl(store, longUrl) ==>
      && r.Success? && r.value.alreadyExisted
      && r.value.hash in store && store[r.value.hash].longUrl == longUrl
      && store' == store
    // otherwise the first accepted insert decides the hash
    ensures dbError.None? && !HasUrl(store, longUrl) ==>
      var k := FirstSuccess(store, attempts, 0);
      && (k.None? ==> r == Failure(HashesExhausted) && store' == store)
      && (k.Some? ==>
            var h := EncodeHash(attempts[k.value].random);
            && r == Success(ShortenResult(h, false))
            && h !in store
            && store' == store[h := Url(longUrl, 0)])
    ensures r.Success? ==> r.value.hash in store' && store'[r.value.hash].longUrl == longUrl
    // a hash comes back exactly when the lookup works and a row holds the
    // URL or some attempt goes through; the flag says which of the two
    ensures r.Success? <==> dbError.None? && (HasUrl(store, longUrl) || FirstSuccess(store, attempts, 0).Some?)
    ensures r.Success? ==> r.value.alreadyExisted == HasUrl(store, longUrl)
    ensures forall h :: h in store ==> h in store' && store'[h] == store[h]
    ensures |store'.Keys - store.Keys| <= 1
    ensures WellFormed(store) ==> WellFormed(store')
    ensures UrlsDistinct(store) ==> UrlsDistinct(store')
  {
    var found := QueryDbForHash(longUrl, store, dbError);
    if found.Failure? {
      return Failure(found.why), store;
    }
    var alreadyExisted := found.value.Some?;
    var hash: Option<string> := found.value;
    store' := store;
    if hash.None? {
      var used;
      hash, store', used := GenerateAndInsertHashIntoDb(longUrl, store, attempts);
      if hash.Some? {
        AtMostOneNewKey(store, hash.value, Url(longUrl, 0));
      }
    }
    if hash.None? {
      return Failure(HashesExhausted), store';
    }
    r := Success(ShortenResult(hash.value, alreadyExisted));
  }

  /** Writing one key adds at most one key. */
  lemma AtMostOneNewKey(store: Store, h: string, url: Url)
    ensures |store[h := url].Keys - store.Keys| <= 1
  {
    if h in store {
      assert store[h := url].Keys - store.Keys == {};
    } else {
      assert store[h := url].Keys - store.Keys == {h};
    }
  }

  /** Two submissions of the same URL in a row: the second finds the row the
      first created or found, reports the same hash with `alreadyExisted`,
      and inserts nothing. */
  method ShortenTwice(longUrl: string, store: Store, first: seq<Attempt>, second: seq<Attempt>)
    returns (r1: Result<ShortenResult>, r2: Result<ShortenResult>, store': Store, store'': Store)
    requires UrlsDistinct(store)
    requires |first| >= NumberOfHashAttempts && |second| >= NumberOfHashAttempts
    ensures r1.Success? ==> r2 == Success(ShortenResult(r1.value.hash, true)) && store'' == store'
  {
    r1, store' := GetHash(longUrl, store, None, first);
    r2, store'' := GetHash(longUrl, store', None, second);
  }

  function BoolText(b: bool): string {
    if b then "true" else "false"
  }

  const ShortUrlOpen: string := "{\"shortUrl\": \""
  const ErrorOpen: string := "{\"error\": \""

  /** What follows the short URL's closing quote. */
  function ExistedText(alreadyExisted: bool): string {
    ", \"alreadyExisted\": " + BoolText(alreadyExisted) + "}"
  }

  /** The JSON body `make_response` writes, with nothing escaped. */
  function Payload(shortDomain: string, result: Result<ShortenResult>): string {
    match result
    case Success(res) =>
      ShortUrlOpen + (shortDomain + "/" + res.hash) + "\"" + ExistedText(res.alreadyExisted)
    case Failure(why) =>
      ErrorOpen + why + "\"" + "}"
  }

  /** The error description sits verbatim between the opening and `"}`. */
  lemma ErrorPayloadVerbatim(shortDomain: string, why: string)
    ensures var body := Payload(shortDomain, Failure(why));
      && |body| == |ErrorOpen| + |why| + 2
      && body[..|ErrorOpen|] == ErrorOpen
      && body[|ErrorOpen|..|ErrorOpen| + |why|] == why
      && body[|ErrorOpen| + |why|..] == "\"}"
  {
    var body := Payload(shortDomain, Failure(why));
    assert body == ErrorOpen + why + ("\"" + "}");
    assert body[..|ErrorOpen|] == ErrorOpen;
    assert body[|ErrorOpen|..|ErrorOpen| + |why|] == why;
    assert body[|ErrorOpen| + |why|..] == "\"" + "}";
  }

  /** `make_response`: 200 with the short URL, or 500 with the error; always
      JSON, always with the body's byte length. */
  function MakeResponse(shortDomain: string, result: Result<ShortenResult>): (resp: Response)
    ensures resp.status == (if result.Success? then Ok else InternalServerError)
    ensures resp.contentType == Some(Json) && resp.location == None
    ensures resp.contentLength == Some(Utf8Length(resp.body))
    // an error description goes into the body verbatim, between the
    // opening `{"error": "` and the closing `"}`
    ensures result.Failure? ==>
      && |resp.body| == |ErrorOpen| + |result.why| + 2
      && resp.body[..|ErrorOpen|] == ErrorOpen
      && resp.body[|ErrorOpen|..|ErrorOpen| + |result.why|] == result.why
      && resp.body[|ErrorOpen| + |result.why|..] == "\"}"
  {
    var payload := Payload(shortDomain, result);
    if result.Failure? then
      ErrorPayloadVerbatim(shortDomain, result.why);
      Response(InternalServerError, Some(Utf8Length(payload)), Some(Json), None, payload)
    else
      Response(Ok, Some(Utf8Length(payload)), Some(Json), None, payload)
  }

  // A small reader for the two payload shapes, to state what the body says.

  predicate NoQuoteOrBackslash(s: string) {
    forall i :: 0 <= i < |s| ==> s[i] != '"' && s[i] != '\\'
  }

  /** Joining two strings free of quotes and backslashes keeps them free. */
  lemma NoQuoteOrBackslashConcat(a: string, b: string)
    requires NoQuoteOrBackslash(a) && NoQuoteOrBackslash(b)
    ensures NoQuoteOrBackslash(a + b)
  {
    forall i | 0 <= i < |a + b| ensures (a + b)[i] != '"' && (a + b)[i] != '\\' {
      if i >= |a| { assert (a + b)[i] == b[i - |a|]; }
    }
  }

  /** Reads the contents of a JSON string literal whose opening quote is
      already consumed, up to its closing quote; gives up at a backslash.
      Returns the contents and what follows the closing quote. */
  function ReadStringBody(s: string): (r: Option<(string, string)>)
    ensures r.Some? ==> NoQuoteOrBackslash(r.value.0) && s == r.value.0 + "\"" + r.value.1
  {
    if s == [] then None
    else if s[0] == '"' then Some(("", s[1..]))
    else if s[0] == '\\' then None
    else match ReadStringBody(s[1..])
      case None => None
      case Some((contents, rest)) => Some(([s[0]] + contents, rest))
  }

  lemma {:induction false} ReadStringBodyOf(contents: string, rest: string)
    requires NoQuoteOrBackslash(contents)
    ensures ReadStringBody(contents + "\"" + rest) == Some((contents, rest))
  {
    if contents != [] {
      var s := contents + "\"" + rest;
      assert s[1..] == contents[1..] + "\"" + rest;
      ReadStringBodyOf(contents[1..], rest);
      assert [s[0]] + contents[1..] == contents;
    }
  }

  datatype PayloadFields = ShortUrl(shortUrl: string, alreadyExisted: bool) | ErrorText(why: string)

  function ReadPayload(body: string): Option<PayloadFields> {
    if StartsWith(body, ShortUrlOpen) then
      match ReadStringBody(body[|ShortUrlOpen|..])
      case None => None
      case Some((url, rest)) =>
        if rest == ExistedText(true) then Some(ShortUrl(url, true))
        else if rest == ExistedText(false) then Some(ShortUrl(url, false))
        else None
    else if StartsWith(body, ErrorOpen) then
      match ReadStringBody(body[|ErrorOpen|..])
      case None => None
      case Some((why, rest)) => if rest == "}" then Some(ErrorText(why)) else None
    else None
  }

  lemma ReadAfterOpening(open: string, contents: string, rest: string)
    requires NoQuoteOrBackslash(contents)
    ensures StartsWith(open + contents + "\"" + rest, open)
    ensures ReadStringBody((open + contents + "\"" + rest)[|open|..]) == Some((contents, rest))
  {
    var body := open + contents + "\"" + rest;
    assert body == open + (contents + "\"" + rest);
    assert body[|open|..] == contents + "\"" + rest;
    ReadStringBodyOf(contents, rest);
  }

  /** A success body carries `<domain>/<hash>` and the flag, readable back
      whenever neither contains a quote or backslash. */
  lemma ReadSuccessPayload(shortDomain: string, res: ShortenResult)
    requires NoQuoteOrBackslash(shortDomain + "/" + res.hash)
    ensures ReadPayload(MakeResponse(shortDomain, Success(res)).body)
            == Some(ShortUrl(shortDomain + "/" + res.hash, res.alreadyExisted))
  {
    ReadAfterOpening(ShortUrlOpen, shortDomain + "/" + res.hash, ExistedText(res.alreadyExisted));
    assert ExistedText(true) != ExistedText(false) by { assert ExistedText(true)[20] != ExistedText(false)[20]; }
  }

  /** Because nothing is escaped, an error body gives back its description
      exactly when the description has no quote and no backslash. */
  lemma ReadErrorPayload(shortDomain: string, why: string)
    ensures ReadPayload(MakeResponse(shortDomain, Failure(why)).body) == Some(ErrorText(why))
            <==> NoQuoteOrBackslash(why)
  {
    var body := MakeResponse(shortDomain, Failure(why)).body;
    assert !StartsWith(body, ShortUrlOpen) by { assert body[2] != ShortUrlOpen[2]; }
    if NoQuoteOrBackslash(why) {
      ReadAfterOpening(ErrorOpen, why, "}");
    }
  }

  /** A description holding a quote ends the JSON string early: the body
      `{"error": "a"b"}` is not an error payload at all. */
  lemma QuotedDescriptionBreaksPayload(shortDomain: string)
    ensures ReadPayload(MakeResponse(shortDomain, Failure("a\"b")).body) == None
  {
    var body := MakeResponse(shortDomain, Failure("a\"b")).body;
    assert body == ErrorOpen + "a" + "\"" + "b\"}";
    assert !StartsWith(body, ShortUrlOpen) by { assert body[2] != ShortUrlOpen[2]; }
    ReadAfterOpening(ErrorOpen, "a", "b\"}");
  }

  /** A short URL built from a plain domain and a printed hash never needs
      escaping. */
  lemma ShortUrlNeedsNoEscaping(shortDomain: string, hash: string)
    requires NoQuoteOrBackslash(shortDomain) && IsLowerHex(hash)
    ensures NoQuoteOrBackslash(shortDomain + "/" + hash)
  {
    var url := shortDomain + "/" + hash;
    forall i | 0 <= i < |url| ensures url[i] != '"' && url[i] != '\\' {
      if i > |shortDomain| {
        assert url[i] == hash[i - |shortDomain| - 1];
        assert IsLowerHexDigit(hash[i - |shortDomain| - 1]);
      }
    }
  }
}

=== FILE: text.dfy ===
/** Character-level facts about Rust strings that the service relies on. */
module Text {

  predicate StartsWith(s: string, prefix: string) {
    |prefix| <= |s| && s[..|prefix|] == prefix
  }

  predicate IsAsciiChar(c: char) {
    c as int < 0x80
  }

  predicate IsAscii(s: string) {
    forall i :: 0 <= i < |s| ==> IsAsciiChar(s[i])
  }

  /** The characters Rust's `char::is_alphanumeric` accepts among the ASCII ones. */
  predicate IsAsciiAlphanumeric(c: char) {
    '0' <= c <= '9' || 'a' <= c <= 'z' || 'A' <= c <= 'Z'
  }

  /** Number of bytes `c` occupies in UTF-8. */
  function Utf8Width(c: char): nat {
    if c as int < 0x80 then 1
    else if c as int < 0x800 then 2
    else if c as int < 0x1_0000 then 3
    else 4
  }

  /** Length in bytes of the UTF-8 encoding of `s`: what Rust's `String::len`
      returns and hence what every `ContentLength` header carries. */
  function Utf8Length(s: string): (n: nat)
    ensures |s| <= n <= 4 * |s|
    ensures n == |s| <==> IsAscii(s)
  {
    if s == [] then 0
    else
      assert IsAscii(s) <==> IsAsciiChar(s[0]) && IsAscii(s[1..]) by {
        if IsAsciiChar(s[0]) && IsAscii(s[1..]) {
          forall i | 0 <= i < |s| ensures IsAsciiChar(s[i]) {
            if i > 0 { assert s[i] == s[1..][i - 1]; }
          }
        }
      }
      Utf8Width(s[0]) + Utf8Length(s[1..])
  }
}
